=== FILE: README.md ===
# Chained hash map, modelled in Dafny

This project models `HashMap<KeyType, ValueType, Hash>` from `hashmap.cpp` together
with its iterator `HashMapIterator`. The table is a vector of buckets (`objects`).
Each bucket is a list of `(key, value)` pairs. A key lives in bucket
`hasher(key) % objects.size()`, and a counter `sz` counts the live entries.

The model is functional. A table is the value `Table(buckets, size)`. Every
operation is a pure function from the table before the call to the table after it.
The hasher is an arbitrary parameter `hash: K -> nat`, and key equality is Dafny's `==`.
Iterators and the reference `operator[]` returns are both modelled as a logical
cursor `Cursor(bucket, pos)`.

The table invariant is `Tables.Valid`:
- there is at least one bucket;
- every entry sits in the bucket its key hashes to;
- no key occurs twice in a bucket;
- `sz` equals the sum of the bucket lengths.

The abstract view `Tables.Contents` is the key-to-value map read off all buckets
without using the hash. Every public operation is specified against it. So each
contract also says that scanning the single bucket the key hashes to is enough.

Files:
- `buckets.dfy` (module `Buckets`): one bucket. It holds the scan `get_obj` and the map a list of pairs denotes.
- `tables.dfy` (module `Tables`): the table and its invariant, the one-bucket edits, and the private `add_obj`, `erase_obj` and `resize`.
- `iterators.dfy` (module `Iterators`): `begin()`, `end()`, `operator++`, `operator==`, and a full traversal.
- `hashmap.dfy` (module `HashMaps`): the constructors, `insert`, `operator[]`, `at`, `find`, `erase`, `clear`, `size` and `empty`, plus lemmas relating them.

Three behaviours of `hashmap.cpp` shape the model:
- the smallest bucket count is 1: the default constructors and `clear()` leave one bucket (hashmap.cpp:164-172, 318-322);
- `erase` never shrinks the table (hashmap.cpp:209-216);
- growth is checked before the mutation, by the test `objects.size() < sz`, and rebuilds with `2 * sz` buckets (hashmap.cpp:303-305, 359-361).

## Model

| member | source | states |
|---|---|---|
| `Tables.Slot` | hashmap.cpp:198 | The bucket chosen for a key, `hasher(key) % objects.size()`, is a valid index below the bucket count. |
| `Buckets.Scan` | hashmap.cpp:179-186 | The scan stops at the first pair carrying the key. It returns the list's end exactly when no pair carries the key. |
| `Buckets.ScanAgreesWithMapOf` | hashmap.cpp:180-186 | In a bucket with distinct keys, the scan finds a key exactly when the key is in the bucket's map, and it finds the mapped value. |
| `Buckets.MapOfLastWins` | hashmap.cpp:244-248 | When pairs are added with `add_obj` in order, a key ends up with the value of its last pair. |
| `Buckets.AppendToBucket` | hashmap.cpp:309 | `push_back` of a new key keeps the bucket's keys distinct and adds exactly that key to the bucket's map. |
| `Buckets.OverwriteInBucket` | hashmap.cpp:200-202 | Assigning `it->second` keeps the keys distinct and changes only that key's value. |
| `Buckets.RemoveFromBucket` | hashmap.cpp:213 | Unlinking one list node keeps the keys distinct and removes exactly that key. |
| `Tables.FlattenDistinct` | hashmap.cpp:306-311 | Placement plus per-bucket uniqueness make every key appear at most once in the whole table. |
| `Tables.ContentsBySlot` | hashmap.cpp:198-199 | On a valid table, each key's presence and value agree with the single bucket `hasher(key) % objects.size()`. |
| `Tables.ScanFindsContents` | hashmap.cpp:306-308 | Scanning the key's bucket finds the key exactly when the table stores it, and it finds the stored value. |
| `Tables.SizeIsCount` | hashmap.cpp:290-292 | On a valid table, the counter `sz` equals the number of stored keys. |
| `Tables.UpdateBucket` | hashmap.cpp:204-205 | Replacing one bucket with a list of distinct keys that belong there keeps the invariant. Only that bucket's part of the stored map changes. |
| `Tables.EmptyTable` | hashmap.cpp:222 | `newsz` empty buckets with `sz == 0` form a valid table that stores nothing. |
| `Tables.Append` | hashmap.cpp:308-311 | Appending an absent key keeps the invariant, adds the key with its value, and increases `sz` by one. The pair is appended to the end of its bucket, and no other bucket changes. |
| `Tables.WriteAt` | hashmap.cpp:369 | Writing through a reference (or `it->second = pr.second` at line 201) keeps the invariant and `sz`, and changes only that key's value. Every entry stays at its position, and only the value under the cursor changes. |
| `Tables.RemoveAt` | hashmap.cpp:212-215 | Erasing the entry under a cursor removes exactly its key and decrements `sz`. The other buckets are unchanged. The other entries of its bucket keep their order. |
| `Tables.AddObj` | hashmap.cpp:197-207 | `add_obj` is insert-or-overwrite. The key then maps to the given value, and `sz` grows only when the key was absent. Only the key's bucket changes: an absent key's pair is appended to its end, and an overwrite keeps every key at its position. |
| `Tables.AddAll` | hashmap.cpp:223-227 | Applying `add_obj` to a list of pairs in order stores the old map updated by the list's map, later pairs winning. |
| `Tables.Resize` | hashmap.cpp:218-228 | A rebuild into `newsz` buckets keeps the same key-to-value map and the same `sz`. Every entry ends up in bucket `hash(k) % newsz`. |
| `Tables.Grow` | hashmap.cpp:303-305 | With fewer buckets than entries, the table is rebuilt with `2 * sz` buckets, keeping its contents and `sz`. Otherwise the table is returned unchanged. Afterwards `sz` is at most the bucket count. |
| `Iterators.FirstNonEmpty` | hashmap.cpp:16-19 | The skip loop stops at the first non-empty bucket at or after its start, or at the bucket count. Every bucket it passes is empty. |
| `Iterators.End` | hashmap.cpp:332-334 | `end()` has bucket index equal to the bucket count, is not on an entry, and has passed every entry. |
| `Iterators.Advance` | hashmap.cpp:35-45 | `++` passes exactly the current entry and lands on the next entry in bucket-then-list order, or on the end position. |
| `Iterators.Begin` | hashmap.cpp:12-23 | `begin()` is a well-formed cursor that has passed no entry. So it is on the first entry in bucket order, or at the end position when there is none. |
| `Iterators.Equal` | hashmap.cpp:61-63 | `operator==` holds for the same position within the buckets, or for two cursors whose bucket index equals the bucket count; the `hmap ==` pointer test is dropped. For well-formed cursors it holds exactly when both have passed equally many entries. |
| `Iterators.PassedFewer` | hashmap.cpp:35-45 | Moving forward in bucket-then-list order from an entry strictly increases the number of entries passed. |
| `Iterators.BeforeIsPrefix` | hashmap.cpp:37-43 | The entries passed so far are a prefix of all entries. While the cursor is on an entry, they are a strict prefix, so iteration terminates. |
| `Iterators.BeginIsEndIffEmpty` | hashmap.cpp:61-63 | On a valid table, `begin() == end()` holds exactly when `sz == 0`. |
| `Iterators.Traverse` | hashmap.cpp:324-338 | Looping from `begin()` with `++` until `end()` visits every entry exactly once, in bucket order then list order. It takes `sz` steps, covers exactly the stored keys with their values, and stops with bucket index equal to the bucket count. |
| `HashMaps.Empty` | hashmap.cpp:164-172 | Both default constructors make a valid table with one bucket that stores nothing, and `begin() == end()`. |
| `HashMaps.FromPairs` | hashmap.cpp:232-249 | The range constructor makes `max(2n, 1)` buckets for `n` pairs. It stores the left-to-right upsert map of the pairs, and `sz` equals its number of keys. |
| `HashMaps.FromPairsWithHasher` | hashmap.cpp:252-268 | As written, this constructor stores the same map, but `sz` is the number of pairs plus the number of keys. The invariant is broken for any non-empty input. |
| `HashMaps.Clear` | hashmap.cpp:318-322 | `clear()` leaves a valid table with one bucket and no entries, and `begin() == end()`. |
| `HashMaps.Size` | hashmap.cpp:290-292 | `size()` is the number of stored keys. |
| `HashMaps.IsEmpty` | hashmap.cpp:294-296 | `empty()` holds exactly when no key is stored, and exactly when `begin() == end()`. |
| `HashMaps.Insert` | hashmap.cpp:302-312 | `insert` never overwrites. A present key leaves the map and `sz` unchanged. An absent key is added with its value and `sz` grows by one. The bucket count follows the growth rule. A present key leaves the grown table exactly as growth made it. An absent key's pair is appended to the end of its bucket in the grown table, and no other bucket changes. |
| `HashMaps.Index` | hashmap.cpp:358-370 | `operator[]` returns a reference to the key's entry. For a present key, the map and `sz` are unchanged and the referenced value is the stored one. For an absent key, `(key, default)` is added, `sz` grows by one, and the referenced value is the default. The table is the grown one, with `(key, default)` appended to the end of the key's bucket when the key was absent, and the reference points at that last position. |
| `HashMaps.At` | hashmap.cpp:372-379 | `at` fails with out-of-range exactly when the key is absent. Otherwise it returns the stored value. |
| `HashMaps.Find` | hashmap.cpp:340-347 | `find` returns `end()` exactly when the key is absent. Otherwise it returns a cursor on the entry holding the key and its stored value. |
| `HashMaps.Erase` | hashmap.cpp:209-216 | `erase` removes exactly the key and decrements `sz` when the key is present. It is the identity when the key is absent. It never changes the bucket count or any other bucket. For a present key, the key's bucket loses exactly the entry `get_obj` found, and its other entries keep their order. |
| `HashMaps.InsertThenAt` | hashmap.cpp:306-311 | After `insert((k, v))`, `at(k)` returns the earlier value if `k` was present, and `v` otherwise. |
| `HashMaps.IndexThenAssign` | hashmap.cpp:358-370 | `m[k] = v` is an upsert. Afterwards `at(k)` returns `v` and every other key is unchanged. |
| `HashMaps.EraseIdempotent` | hashmap.cpp:314-316 | Erasing a key twice gives the same table as erasing it once. |
| `HashMaps.FindAgreesWithAt` | hashmap.cpp:340-379 | `find` reaches `end()` exactly when `at` fails. Otherwise it points at the value `at` returns. |
| `HashMaps.FromPairsLastWins` | hashmap.cpp:244-248 | After the range constructor, `at` of a key returns the value of the key's last pair. |
| `HashMaps.Assign` | hashmap.cpp:358-370 | `m[k] = v`, that is `operator[]` followed by a write through its reference, is an upsert: the key then maps to `v`, `sz` grows only when the key was absent, and `sz` stays at most one above the bucket count. |
| `HashMaps.Step` | hashmap.cpp:302-370 | One call of `insert`, `operator[]`, `m[k] = v`, `erase` or `clear` keeps the invariant and acts on the stored map as the same call acts on a plain map. It also keeps `sz` at most one above the bucket count. |
| `HashMaps.RunMatchesMapRun` | hashmap.cpp:302-370 | Any sequence of these calls acts on the stored map as the same sequence acts on a plain map, and `size()` then equals that map's number of keys. |
| `HashMaps.RunKeepsLoadBound` | hashmap.cpp:303-305 | Because growth is checked before each `insert` and `operator[]`, `sz` never exceeds the bucket count by more than one, whatever the sequence of calls. |
| `HashMaps.InsertKeepsFirstExample` | hashmap.cpp:302-312 | Inserting (1,"a"), (2,"b"), (1,"c") gives `size() == 2`, `at(1) == "a"` and `at(2) == "b"`. |
| `HashMaps.HasherConstructorDoubleCounts` | hashmap.cpp:252-268 | With the single pair (7,"x"), the hasher-taking constructor reports `size() == 2` while holding one key. |

## Left out

- `HashMapConstIterator` (hashmap.cpp:87-154) duplicates the logic of `HashMapIterator` line for line, so it is not modelled separately. The const overloads of `get_obj`, `begin`, `end` and `find` are left out for the same reason.
- The copy constructor and copy assignment (hashmap.cpp:274-288) are about ownership and copying, not about the table's logic. The copy constructor also passes the class's not-yet-initialised `hasher` member to the hasher-taking range constructor.
- The `std::initializer_list` constructors (hashmap.cpp:270-272) only delegate to the two range constructors. Those are modelled as `HashMaps.FromPairs` and `HashMaps.FromPairsWithHasher` over a sequence of pairs.
- `hash_function()` only returns the hasher, which the model takes as a parameter. The hasher itself is arbitrary and never inspected.
- Pointer identity is not modelled. This covers the `hmap == a.hmap` test in `operator==`, address stability of list iterators, and iterator invalidation by `resize`, `erase` and `clear`. Cursors are re-derived positions in one table. `Iterators.Equal` compares two list iterators as equal positions.
- `begin()` on a table whose buckets are all empty leaves its list iterator singular. Comparing it with `end()` is decided here by the bucket-index test alone.
- Postfix `operator++(int)`, `operator*` and `operator->` (hashmap.cpp:47-59) are covered by `Iterators.Advance` and `Tables.Deref`. The accessors `hmap_ptr`, `get_hmap`, `get_hsh` and `get_obj_it` only expose the cursor's fields.
- The null-table iterator from the default iterator constructor (hashmap.cpp:12-15) has no counterpart.
- `size_t` arithmetic is unbounded here. Overflow of `sz * 2` and the range of the hasher's result are not modelled.
- `at`'s `std::out_of_range` exception is modelled as the `OutOfRange` case of a result value.
- `Tables.Resize` requires a positive bucket count. The code only calls `resize` with `2 * sz` when `sz` exceeds a bucket count of at least 1.
- `ValueType()` in `operator[]` is a parameter `default`.

## Findings

| source | as written | input that shows it | evidently intended | confidence | as-written member | corrected member |
|---|---|---|---|---|---|---|
| hashmap.cpp:252-268 | The hasher-taking range constructor sets `sz` to the number of pairs (line 255). Then `add_obj` increments `sz` again for every key it adds. | The single pair `(7, "x")`: `size()` returns 2 while the table holds one entry (`HashMaps.HasherConstructorDoubleCounts`). | `sz` equals the number of distinct keys, as with the constructor at lines 232-249. | high; not executed | `HashMaps.FromPairsWithHasher` | `HashMaps.FromPairs` |

=== FILE: buckets.dfy ===
/**
 One bucket of the chained hash table: a list of (key, value) pairs whose keys
 hashed to the same index. This module holds the linear scan the table uses to
 find a key in a bucket (`get_obj`) and the key-to-value map a list of pairs
 denotes, together with the facts about that map the table relies on.
 */
module Buckets {

  /** True when no two pairs of `s` carry the same key. */
  ghost predicate DistinctKeys<K, V>(s: seq<(K, V)>) {
    forall i, j :: 0 <= i < |s| && 0 <= j < |s| && s[i].0 == s[j].0 ==> i == j
  }

  /** Linear scan of one bucket from its front (`get_obj`): the position of the
      first pair whose key equals `k`, or `|b|` (the list's end) when there is none. */
  function Scan<K(==), V>(b: seq<(K, V)>, k: K): (i: nat)
    ensures i <= |b|
    ensures i < |b| ==> b[i].0 == k
    ensures forall j :: 0 <= j < i ==> b[j].0 != k
  {
    if |b| == 0 then 0
    else if b[0].0 == k then 0
    else
      var i := Scan(b[1..], k);
      assert forall j :: 1 <= j <= i ==> b[j] == b[1..][j - 1];
      1 + i
  }

  /** The map a list of pairs denotes when it is read from left to right, a later
      pair for a key overriding an earlier one (the insert-or-overwrite reading). */
  function MapOf<K(==), V>(s: seq<(K, V)>): map<K, V> {
    if |s| == 0 then map[] else map[s[0].0 := s[0].1] + MapOf(s[1..])
  }

  lemma DistinctKeysTail<K, V>(s: seq<(K, V)>)
    requires |s| > 0 && DistinctKeys(s)
    ensures DistinctKeys(s[1..])
  {
    forall i, j | 0 <= i < |s| - 1 && 0 <= j < |s| - 1 && s[1..][i].0 == s[1..][j].0
      ensures i == j
    {
      assert s[i + 1].0 == s[j + 1].0;
    }
  }

  /** Every key of the denoted map comes from some pair of the list. */
  lemma {:induction false} MapOfSound<K, V>(s: seq<(K, V)>, k: K)
    requires k in MapOf(s)
    ensures exists j :: 0 <= j < |s| && s[j].0 == k
  {
    if s[0].0 != k {
      MapOfSound(s[1..], k);
      var j :| 0 <= j < |s[1..]| && s[1..][j].0 == k;
      assert s[j + 1].0 == k;
    }
  }

  /** Every pair's key is a key of the denoted map. */
  lemma {:induction false} MapOfComplete<K, V>(s: seq<(K, V)>, j: nat)
    requires j < |s|
    ensures s[j].0 in MapOf(s)
  {
    if j > 0 {
      MapOfComplete(s[1..], j - 1);
      assert s[1..][j - 1] == s[j];
    }
  }

  /** With distinct keys, the first pair's key is not repeated further on. */
  lemma HeadKeyNotInTail<K, V>(s: seq<(K, V)>)
    requires |s| > 0 && DistinctKeys(s)
    ensures s[0].0 !in MapOf(s[1..])
  {
    forall j | 0 <= j < |s[1..]|
      ensures s[1..][j].0 != s[0].0
    {
      assert s[1..][j] == s[j + 1];
    }
    MapOfAbsent(s[1..], s[0].0);
  }

  /** The value a key ends up with is the one of its last pair. */
  lemma {:induction false} MapOfLastWins<K, V>(s: seq<(K, V)>, j: nat)
    requires j < |s|
    requires forall m :: j < m < |s| ==> s[m].0 != s[j].0
    ensures s[j].0 in MapOf(s) && MapOf(s)[s[j].0] == s[j].1
  {
    if j == 0 {
      forall m | 0 <= m < |s[1..]|
        ensures s[1..][m].0 != s[0].0
      {
        assert s[1..][m] == s[m + 1];
      }
      MapOfAbsent(s[1..], s[0].0);
    } else {
      forall m | j - 1 < m < |s[1..]|
        ensures s[1..][m].0 != s[j].0
      {
        assert s[1..][m] == s[m + 1];
      }
      assert s[1..][j - 1] == s[j];
      MapOfLastWins(s[1..], j - 1);
    }
  }

  /** With distinct keys, the denoted map sends each pair's key to that pair's value. */
  lemma MapOfValue<K, V>(s: seq<(K, V)>, j: nat)
    requires DistinctKeys(s) && j < |s|
    ensures s[j].0 in MapOf(s) && MapOf(s)[s[j].0] == s[j].1
  {
    MapOfLastWins(s, j);
  }

  /** A key that no pair carries is not in the denoted map. */
  lemma MapOfAbsent<K, V>(s: seq<(K, V)>, k: K)
    requires forall j :: 0 <= j < |s| ==> s[j].0 != k
    ensures k !in MapOf(s)
  {
    if k in MapOf(s) {
      MapOfSound(s, k);
    }
  }

  /** Reading a concatenation is reading both halves, the right one winning. */
  lemma {:induction false} MapOfConcat<K, V>(a: seq<(K, V)>, b: seq<(K, V)>)
    ensures MapOf(a + b) == MapOf(a) + MapOf(b)
  {
    if |a| == 0 {
      assert a + b == b;
    } else {
      assert (a + b)[1..] == a[1..] + b;
      MapOfConcat(a[1..], b);
    }
  }

  /** With distinct keys, the denoted map has one key per pair. */
  lemma {:induction false} MapOfCard<K, V>(s: seq<(K, V)>)
    requires DistinctKeys(s)
    ensures |MapOf(s)| == |s|
  {
    if |s| > 0 {
      DistinctKeysTail(s);
      MapOfCard(s[1..]);
      HeadKeyNotInTail(s);
      assert MapOf(s) == MapOf(s[1..])[s[0].0 := s[0].1];
    }
  }

  /** A scan of a bucket with distinct keys finds `k` exactly when `k` is a key of
      the bucket's map, and what it finds is the mapped value. */
  lemma ScanAgreesWithMapOf<K, V>(b: seq<(K, V)>, k: K)
    requires DistinctKeys(b)
    ensures Scan(b, k) < |b| <==> k in MapOf(b)
    ensures Scan(b, k) < |b| ==> MapOf(b)[k] == b[Scan(b, k)].1
  {
    var i := Scan(b, k);
    if i < |b| {
      MapOfValue(b, i);
    } else {
      MapOfAbsent(b, k);
    }
  }

  /** Appending a pair for a key the bucket does not hold adds that key. */
  lemma AppendToBucket<K, V>(b: seq<(K, V)>, k: K, v: V)
    requires DistinctKeys(b)
    requires forall j :: 0 <= j < |b| ==> b[j].0 != k
    ensures DistinctKeys(b + [(k, v)])
    ensures MapOf(b + [(k, v)]) == MapOf(b)[k := v]
  {
    MapOfConcat(b, [(k, v)]);
    MapOfSingle((k, v));
  }

  /** Map union is associative. */
  lemma UnionAssoc<K, V>(a: map<K, V>, b: map<K, V>, c: map<K, V>)
    ensures a + (b + c) == (a + b) + c
  {
  }

  /** The map of a one-pair list. */
  lemma MapOfSingle<K, V>(x: (K, V))
    ensures MapOf([x]) == map[x.0 := x.1]
  {
    assert [x][1..] == [];
  }

  /** The map of a list, split around position `i`. */
  lemma MapOfSplit<K, V>(b: seq<(K, V)>, i: nat)
    requires i < |b|
    ensures MapOf(b) == MapOf(b[..i]) + map[b[i].0 := b[i].1] + MapOf(b[i + 1..])
  {
    var front, rest := b[..i], b[i + 1..];
    assert b == front + ([b[i]] + rest);
    MapOfConcat(front, [b[i]] + rest);
    MapOfConcat([b[i]], rest);
    MapOfSingle(b[i]);
    UnionAssoc(MapOf(front), map[b[i].0 := b[i].1], MapOf(rest));
  }

  /** With distinct keys, the key at `i` occurs nowhere else. */
  lemma KeyNotElsewhere<K, V>(b: seq<(K, V)>, i: nat)
    requires DistinctKeys(b) && i < |b|
    ensures b[i].0 !in MapOf(b[..i]) && b[i].0 !in MapOf(b[i + 1..])
  {
    assert forall j :: 0 <= j < |b[..i]| ==> b[..i][j] == b[j];
    assert forall j :: i + 1 <= j < |b| ==> b[i + 1..][j - i - 1] == b[j];
    MapOfAbsent(b[..i], b[i].0);
    MapOfAbsent(b[i + 1..], b[i].0);
  }

  /** Replacing the middle map of a union by one for the same key. */
  lemma UnionReplaceMiddle<K, V>(front: map<K, V>, k: K, x: V, v: V, back: map<K, V>)
    requires k !in back
    ensures front + map[k := v] + back == (front + map[k := x] + back)[k := v]
  {
  }

  /** Dropping the middle map of a union whose key occurs nowhere else. */
  lemma UnionDropMiddle<K, V>(front: map<K, V>, k: K, x: V, back: map<K, V>)
    requires k !in front && k !in back
    ensures front + back == (front + map[k := x] + back) - {k}
  {
  }

  /** Overwriting the value of the pair at `i` changes that key's value only. */
  lemma OverwriteInBucket<K, V>(b: seq<(K, V)>, i: nat, v: V)
    requires DistinctKeys(b) && i < |b|
    ensures DistinctKeys(b[i := (b[i].0, v)])
    ensures MapOf(b[i := (b[i].0, v)]) == MapOf(b)[b[i].0 := v]
  {
    var k := b[i].0;
    var b' := b[i := (k, v)];
    assert forall j :: 0 <= j < |b| ==> b'[j].0 == b[j].0;
    assert b'[..i] == b[..i] && b'[i + 1..] == b[i + 1..];
    MapOfSplit(b, i);
    MapOfSplit(b', i);
    KeyNotElsewhere(b, i);
    UnionReplaceMiddle(MapOf(b[..i]), k, b[i].1, v, MapOf(b[i + 1..]));
  }

  /** Removing the pair at `i` keeps the other keys distinct. */
  lemma RemoveKeepsDistinct<K, V>(b: seq<(K, V)>, i: nat)
    requires DistinctKeys(b) && i < |b|
    ensures DistinctKeys(b[..i] + b[i + 1..])
  {
    var b' := b[..i] + b[i + 1..];
    forall x, y | 0 <= x < |b'| && 0 <= y < |b'| && b'[x].0 == b'[y].0
      ensures x == y
    {
      assert b'[x] == b[if x < i then x else x + 1];
      assert b'[y] == b[if y < i then y else y + 1];
    }
  }

  /** Removing the pair at `i` removes exactly its key. */
  lemma RemoveFromBucket<K, V>(b: seq<(K, V)>, i: nat)
    requires DistinctKeys(b) && i < |b|
    ensures DistinctKeys(b[..i] + b[i + 1..])
    ensures MapOf(b[..i] + b[i + 1..]) == MapOf(b) - {b[i].0}
  {
    RemoveKeepsDistinct(b, i);
    MapOfSplit(b, i);
    MapOfConcat(b[..i], b[i + 1..]);
    KeyNotElsewhere(b, i);
    UnionDropMiddle(MapOf(b[..i]), b[i].0, b[i].1, MapOf(b[i + 1..]));
  }
}

=== FILE: hashmap.dfy ===
/**
 The public operations of `HashMap<KeyType, ValueType, Hash>`: construction,
 `insert` (never overwrites), `operator[]` (inserts a default value when the key
 is missing), `at` (fails on a missing key), `find`, `erase`, `clear`, `size` and
 `empty`. Every operation is a pure function from the table before the call to
 the table after it; each is specified against the stored map `Contents`, which
 is read off all buckets without the hash, so the contracts also say that the
 one-bucket scan each operation does is enough.
 */
module HashMaps {
  import opened Buckets
  import opened Tables
  import opened Iterators

  /** The outcome of `at`: the stored value, or the `std::out_of_range` it throws. */
  datatype Result<T> = Ok(value: T) | OutOfRange(message: string)

  /** What `operator[]` gives back: the table after the call and the place of the
      value the returned reference designates. */
  datatype Reference<K, V> = Reference(table: Table<K, V>, cursor: Cursor)

  /** `HashMap()` and `HashMap(hasher)`: one empty bucket and `sz == 0`. */
  function Empty<K(==), V>(ghost hash: K -> nat): (r: Table<K, V>)
    ensures Valid(hash, r) && Contents(r) == map[] && |r.buckets| == 1
    ensures Equal(r, Begin(r), End(r))
  {
    var r := EmptyTable(hash, 1);
    BeginIsEndIffEmpty(hash, r);
    r
  }

  /** The range constructor `HashMap(first, last)`: `2 * n` buckets for `n` pairs
      (at least one), then `add_obj` of each pair in order, so a later pair for a
      key overwrites an earlier one. */
  function FromPairs<K(==), V>(hash: K -> nat, pairs: seq<(K, V)>): (r: Table<K, V>)
    ensures Valid(hash, r)
    ensures |r.buckets| == if |pairs| == 0 then 1 else 2 * |pairs|
    ensures Contents(r) == MapOf(pairs)
    ensures r.size == |MapOf(pairs)|
  {
    var count := if 2 * |pairs| < 1 then 1 else 2 * |pairs|;
    var r := AddAll(hash, EmptyTable(hash, count), pairs);
    assert map[] + MapOf(pairs) == MapOf(pairs);
    SizeIsCount(hash, r);
    r
  }

  /** The range constructor that also takes a hasher, as written: it first sets
      `sz` to the number of pairs and then runs the same `add_obj` loop, which
      increments `sz` again for every key it adds. `add_obj` never reads `sz`,
      so the buckets are those `FromPairs` builds and only the counter differs. */
  function FromPairsWithHasher<K(==), V>(hash: K -> nat, pairs: seq<(K, V)>): (r: Table<K, V>)
    ensures Contents(r) == MapOf(pairs)
    ensures r.size == |pairs| + |Contents(r)|
    ensures |pairs| > 0 ==> !Valid(hash, r)
  {
    var built := FromPairs(hash, pairs);
    var r := Table(built.buckets, |pairs| + built.size);
    assert Valid(hash, r) ==> r.size == built.size;
    r
  }

  /** `clear()`: every entry dropped, one empty bucket again. */
  function Clear<K(==), V>(ghost hash: K -> nat, t: Table<K, V>): (r: Table<K, V>)
    ensures Valid(hash, r) && Contents(r) == map[] && r.size == 0 && |r.buckets| == 1
    ensures Equal(r, Begin(r), End(r))
  {
    Empty(hash)
  }

  /** `size()`: the counter, which is the number of stored keys. */
  function Size<K(==), V>(ghost hash: K -> nat, t: Table<K, V>): (r: nat)
    requires Valid(hash, t)
    ensures r == |Contents(t)|
  {
    SizeIsCount(hash, t);
    t.size
  }

  /** `empty()`: `sz == 0`, which holds exactly when no key is stored and
      exactly when `begin() == end()`. */
  function IsEmpty<K(==), V>(ghost hash: K -> nat, t: Table<K, V>): (r: bool)
    requires Valid(hash, t)
    ensures r <==> Contents(t) == map[]
    ensures r <==> Equal(t, Begin(t), End(t))
  {
    SizeIsCount(hash, t);
    BeginIsEndIffEmpty(hash, t);
    assert Contents(t) == map[] <==> |Contents(t)| == 0 by {
      if |Contents(t)| == 0 {
        assert forall x :: x !in Contents(t);
      }
    }
    t.size == 0
  }

  /** `insert(pr)`: first grow to `2 * sz` buckets if there are fewer buckets than
      entries, then append the pair to its bucket unless the key is already there.
      An existing value is never overwritten. */
  function Insert<K(==), V>(hash: K -> nat, t: Table<K, V>, e: (K, V)): (r: Table<K, V>)
    requires Valid(hash, t)
    ensures Valid(hash, r)
    ensures e.0 in Contents(t) ==> Contents(r) == Contents(t) && r.size == t.size
    ensures e.0 !in Contents(t) ==> Contents(r) == Contents(t)[e.0 := e.1] && r.size == t.size + 1
    ensures |r.buckets| == if |t.buckets| < t.size then 2 * t.size else |t.buckets|
    ensures r.size <= |r.buckets| + 1
    ensures e.0 in Contents(t) ==> r == Grow(hash, t)
    ensures e.0 !in Contents(t) ==>
      var g := Grow(hash, t);
      var h := Slot(hash, e.0, |g.buckets|);
      r.buckets == g.buckets[h := g.buckets[h] + [e]]
  {
    var g := Grow(hash, t);
    var h := Slot(hash, e.0, |g.buckets|);
    var i := Scan(g.buckets[h], e.0);
    ScanFindsContents(hash, g, e.0);
    if i < |g.buckets[h]| then g else Append(hash, g, e.0, e.1)
  }

  /** `operator[](key)`: grow as `insert` does, append `(key, ValueType())` when
      the key is missing, and hand back a reference to the key's value.
      `default` stands for `ValueType()`. */
  function Index<K(==), V>(hash: K -> nat, t: Table<K, V>, k: K, default: V): (r: Reference<K, V>)
    requires Valid(hash, t)
    ensures Valid(hash, r.table) && Live(r.table, r.cursor) && Deref(r.table, r.cursor).0 == k
    ensures k in Contents(t) ==>
      && Contents(r.table) == Contents(t) && r.table.size == t.size
      && Deref(r.table, r.cursor).1 == Contents(t)[k]
    ensures k !in Contents(t) ==>
      && Contents(r.table) == Contents(t)[k := default] && r.table.size == t.size + 1
      && Deref(r.table, r.cursor).1 == default
    ensures |r.table.buckets| == if |t.buckets| < t.size then 2 * t.size else |t.buckets|
    ensures r.table.size <= |r.table.buckets| + 1
    ensures k in Contents(t) ==> r.table == Grow(hash, t)
    ensures k !in Contents(t) ==>
      var g := Grow(hash, t);
      var h := Slot(hash, k, |g.buckets|);
      r.table.buckets == g.buckets[h := g.buckets[h] + [(k, default)]] && r.cursor == Cursor(h, |g.buckets[h]|)
  {
    var g := Grow(hash, t);
    var h := Slot(hash, k, |g.buckets|);
    var i := Scan(g.buckets[h], k);
    ScanFindsContents(hash, g, k);
    if i < |g.buckets[h]| then Reference(g, Cursor(h, i))
    else Reference(Append(hash, g, k, default), Cursor(h, |g.buckets[h]|))
  }

  /** `at(key)`: the stored value, or `out_of_range` when the key is missing.
      The table is not changed. */
  function At<K(==), V>(hash: K -> nat, t: Table<K, V>, k: K): (r: Result<V>)
    requires Valid(hash, t)
    ensures r.OutOfRange? <==> k !in Contents(t)
    ensures r.Ok? ==> r.value == Contents(t)[k]
  {
    var h := Slot(hash, k, |t.buckets|);
    var i := Scan(t.buckets[h], k);
    ScanFindsContents(hash, t, k);
    if i == |t.buckets[h]| then OutOfRange("no element with this key")
    else Ok(t.buckets[h][i].1)
  }

  /** `find(key)`: a cursor on the key's entry, or `end()` when it is missing.
      The table is not changed. */
  function Find<K(==), V>(hash: K -> nat, t: Table<K, V>, k: K): (r: Cursor)
    requires Valid(hash, t)
    ensures WellFormed(t, r)
    ensures Equal(t, r, End(t)) <==> k !in Contents(t)
    ensures k in Contents(t) ==> Live(t, r) && Deref(t, r) == (k, Contents(t)[k])
  {
    var h := Slot(hash, k, |t.buckets|);
    var i := Scan(t.buckets[h], k);
    ScanFindsContents(hash, t, k);
    if i != |t.buckets[h]| then Cursor(h, i) else End(t)
  }

  /** `erase(key)` (through `erase_obj`): unlink the key's entry and decrement
      `sz` when the key is stored, and do nothing otherwise. The bucket count
      never changes. */
  function Erase<K(==), V>(hash: K -> nat, t: Table<K, V>, k: K): (r: Table<K, V>)
    requires Valid(hash, t)
    ensures Valid(hash, r) && Contents(r) == Contents(t) - {k}
    ensures r.size == if k in Contents(t) then t.size - 1 else t.size
    ensures |r.buckets| == |t.buckets|
    ensures forall i :: 0 <= i < |t.buckets| && i != Slot(hash, k, |t.buckets|) ==> r.buckets[i] == t.buckets[i]
    ensures k !in Contents(t) ==> r == t
    ensures k in Contents(t) ==>
      var h := Slot(hash, k, |t.buckets|);
      var i := Scan(t.buckets[h], k);
      i < |t.buckets[h]| && r.buckets == t.buckets[h := t.buckets[h][..i] + t.buckets[h][i + 1..]]
  {
    var h := Slot(hash, k, |t.buckets|);
    var i := Scan(t.buckets[h], k);
    ScanFindsContents(hash, t, k);
    if i < |t.buckets[h]| then RemoveAt(hash, t, Cursor(h, i))
    else
      assert Contents(t) - {k} == Contents(t);
      t
  }

  // ---------------------------------------------------------------------------
  // Properties relating several operations
  // ---------------------------------------------------------------------------

  /** `insert` keeps the first value: reading the key afterwards gives the stored
      value if there was one and the inserted value otherwise. */
  lemma InsertThenAt<K, V>(hash: K -> nat, t: Table<K, V>, k: K, v: V)
    requires Valid(hash, t)
    ensures At(hash, Insert(hash, t, (k, v)), k)
         == if k in Contents(t) then Ok(Contents(t)[k]) else Ok(v)
  {
  }

  /** `m[k] = v` is an upsert: after assigning through the reference `operator[]`
      returns, `at(k)` reads `v` and every other key is untouched, whether or not
      `k` was stored before. */
  lemma IndexThenAssign<K, V>(hash: K -> nat, t: Table<K, V>, k: K, default: V, v: V)
    requires Valid(hash, t)
    ensures var ref := Index(hash, t, k, default);
      var t' := WriteAt(hash, ref.table, ref.cursor, v);
      && Valid(hash, t')
      && Contents(t') == Contents(t)[k := v]
      && At(hash, t', k) == Ok(v)
  {
  }

  /** Erasing twice is erasing once. */
  lemma EraseIdempotent<K, V>(hash: K -> nat, t: Table<K, V>, k: K)
    requires Valid(hash, t)
    ensures Erase(hash, Erase(hash, t, k), k) == Erase(hash, t, k)
  {
  }

  /** `find` and `at` agree: `find` reaches `end()` exactly when `at` fails, and
      otherwise designates the value `at` returns. */
  lemma FindAgreesWithAt<K, V>(hash: K -> nat, t: Table<K, V>, k: K)
    requires Valid(hash, t)
    ensures Equal(t, Find(hash, t, k), End(t)) <==> At(hash, t, k).OutOfRange?
    ensures At(hash, t, k).Ok? ==> Deref(t, Find(hash, t, k)).1 == At(hash, t, k).value
  {
  }

  /** The range constructor keeps, for each key, the value of its last pair. */
  lemma FromPairsLastWins<K, V>(hash: K -> nat, pairs: seq<(K, V)>, j: nat)
    requires j < |pairs|
    requires forall m :: j < m < |pairs| ==> pairs[m].0 != pairs[j].0
    ensures At(hash, FromPairs(hash, pairs), pairs[j].0) == Ok(pairs[j].1)
  {
    MapOfLastWins(pairs, j);
  }

  // ---------------------------------------------------------------------------
  // Sequences of operations
  // ---------------------------------------------------------------------------

  /** One client call: `insert(entry)`, `operator[](key)` with its result unused,
      `operator[](key) = value`, `erase(key)` or `clear()`. */
  datatype Op<K, V> =
    | InsertOp(entry: (K, V))
    | IndexOp(key: K, default: V)
    | AssignOp(key: K, default: V, value: V)
    | EraseOp(key: K)
    | ClearOp

  /** The table never holds more than one entry beyond its bucket count, because
      growth to `2 * sz` buckets is checked before every `insert` and `operator[]`. */
  ghost predicate LoadBounded<K, V>(t: Table<K, V>) {
    t.size <= |t.buckets| + 1
  }

  /** What one call does to a plain map: no-overwrite insert, insert-default,
      upsert, removal and emptying. */
  function MapStep<K, V>(m: map<K, V>, op: Op<K, V>): map<K, V> {
    match op
    case InsertOp(e) => if e.0 in m then m else m[e.0 := e.1]
    case IndexOp(k, d) => if k in m then m else m[k := d]
    case AssignOp(k, d, v) => m[k := v]
    case EraseOp(k) => m - {k}
    case ClearOp => map[]
  }

  /** `m[k] = v`: `operator[]` followed by a write through the reference it returns. */
  function Assign<K(==), V>(hash: K -> nat, t: Table<K, V>, k: K, default: V, v: V): (r: Table<K, V>)
    requires Valid(hash, t)
    ensures Valid(hash, r) && Contents(r) == Contents(t)[k := v]
    ensures r.size == if k in Contents(t) then t.size else t.size + 1
    ensures r.size <= |r.buckets| + 1
  {
    var ref := Index(hash, t, k, default);
    WriteAt(hash, ref.table, ref.cursor, v)
  }

  /** One call on the table. It keeps the invariant and the load bound, and acts
      on the stored map as the call acts on a plain map. */
  function Step<K(==), V>(hash: K -> nat, t: Table<K, V>, op: Op<K, V>): (r: Table<K, V>)
    requires Valid(hash, t)
    ensures Valid(hash, r)
    ensures Contents(r) == MapStep(Contents(t), op)
    ensures LoadBounded(t) ==> LoadBounded(r)
  {
    match op
    case InsertOp(e) => InsertStep(hash, t, e); Insert(hash, t, e)
    case IndexOp(k, d) => IndexStep(hash, t, k, d); Index(hash, t, k, d).table
    case AssignOp(k, d, v) => Assign(hash, t, k, d, v)
    case EraseOp(k) => EraseStep(hash, t, k); Erase(hash, t, k)
    case ClearOp => Clear(hash, t)
  }

  // The three lemmas below restate one case of `Step` each, so that the solver
  // meets the contracts of `insert`, `operator[]` and `erase` one at a time.

  /** `insert` is the plain-map no-overwrite insert and keeps the load bound. */
  lemma InsertStep<K, V>(hash: K -> nat, t: Table<K, V>, e: (K, V))
    requires Valid(hash, t)
    ensures Contents(Insert(hash, t, e)) == MapStep(Contents(t), InsertOp(e))
    ensures LoadBounded(t) ==> LoadBounded(Insert(hash, t, e))
  {
  }

  /** `operator[]` is the plain-map insert-default and keeps the load bound. */
  lemma IndexStep<K, V>(hash: K -> nat, t: Table<K, V>, k: K, d: V)
    requires Valid(hash, t)
    ensures Contents(Index(hash, t, k, d).table) == MapStep(Contents(t), IndexOp(k, d))
    ensures LoadBounded(t) ==> LoadBounded(Index(hash, t, k, d).table)
  {
  }

  /** `erase` is plain-map removal and keeps the load bound. */
  lemma EraseStep<K, V>(hash: K -> nat, t: Table<K, V>, k: K)
    requires Valid(hash, t)
    ensures Contents(Erase(hash, t, k)) == MapStep(Contents(t), EraseOp(k))
    ensures LoadBounded(t) ==> LoadBounded(Erase(hash, t, k))
  {
  }

  /** The table after applying `ops` in order. */
  function Run<K(==), V>(hash: K -> nat, t: Table<K, V>, ops: seq<Op<K, V>>): (r: Table<K, V>)
    requires Valid(hash, t)
    ensures Valid(hash, r)
    decreases |ops|
  {
    if |ops| == 0 then t else Run(hash, Step(hash, t, ops[0]), ops[1..])
  }

  /** The same calls applied to a plain map. */
  function MapRun<K, V>(m: map<K, V>, ops: seq<Op<K, V>>): map<K, V>
    decreases |ops|
  {
    if |ops| == 0 then m else MapRun(MapStep(m, ops[0]), ops[1..])
  }

  /** Any sequence of calls keeps the invariant and acts on the stored map exactly
      as the same calls act on a plain map; `size()` is then the number of keys
      the plain map holds. */
  lemma {:induction false} RunMatchesMapRun<K, V>(hash: K -> nat, t: Table<K, V>, ops: seq<Op<K, V>>)
    requires Valid(hash, t)
    ensures Contents(Run(hash, t, ops)) == MapRun(Contents(t), ops)
    ensures Run(hash, t, ops).size == |MapRun(Contents(t), ops)|
    decreases |ops|
  {
    if |ops| == 0 {
      SizeIsCount(hash, t);
    } else {
      RunMatchesMapRun(hash, Step(hash, t, ops[0]), ops[1..]);
    }
  }

  /** Every sequence of calls keeps the load bound. */
  lemma {:induction false} RunKeepsLoadBound<K, V>(hash: K -> nat, t: Table<K, V>, ops: seq<Op<K, V>>)
    requires Valid(hash, t) && LoadBounded(t)
    ensures LoadBounded(Run(hash, t, ops))
    decreases |ops|
  {
    if |ops| > 0 {
      RunKeepsLoadBound(hash, Step(hash, t, ops[0]), ops[1..]);
    }
  }

  /** The identity hash on naturals, for the worked examples below. */
  function Identity(n: nat): nat {
    n
  }

  /** Inserting (1, "a"), (2, "b"), (1, "c") with `insert` leaves two keys, and key
      1 keeps "a". */
  lemma InsertKeepsFirstExample()
    ensures var t := Insert(Identity, Insert(Identity, Insert(Identity, Empty(Identity), (1, "a")), (2, "b")), (1, "c"));
      && Size(Identity, t) == 2
      && At(Identity, t, 1) == Ok("a")
      && At(Identity, t, 2) == Ok("b")
  {
    var t0: Table<nat, string> := Empty(Identity);
    var t1 := Insert(Identity, t0, (1, "a"));
    var t2 := Insert(Identity, t1, (2, "b"));
    assert Contents(t2) == map[1 := "a", 2 := "b"];
  }

  /** With one pair, the hasher-taking range constructor reports `size() == 2`
      while the table holds a single key. */
  lemma HasherConstructorDoubleCounts()
    ensures var r := FromPairsWithHasher(Identity, [(7, "x")]);
      r.size == 2 && |Contents(r)| == 1
  {
    assert MapOf([(7, "x")]) == map[7 := "x"] by {
      MapOfSingle((7, "x"));
    }
  }
}

=== FILE: iterators.dfy ===
/**
 The iterator protocol of the table (`HashMapIterator`) on logical cursors.
 `begin()` skips leading empty buckets, `++` moves along a bucket's list and
 then skips empty buckets, and the end position is the one whose bucket index
 equals the bucket count. `Before(t, c)` is the sequence of entries an iteration
 from `begin()` has passed when it stands at `c`; the proofs show it grows by
 exactly the current entry at each step.
 */
module Iterators {
  import opened Buckets
  import opened Tables

  /** The first bucket at or after `from` whose list is non-empty, or the bucket
      count when there is none: the skipping loop shared by `begin()` and `++`. */
  function FirstNonEmpty<K, V>(bs: seq<seq<(K, V)>>, from: nat): (h: nat)
    requires from <= |bs|
    ensures from <= h <= |bs|
    ensures forall j :: from <= j < h ==> |bs[j]| == 0
    ensures h < |bs| ==> |bs[h]| > 0
    decreases |bs| - from
  {
    if from == |bs| || |bs[from]| > 0 then from else FirstNonEmpty(bs, from + 1)
  }

  /** A cursor that is either on an entry or at the end position. */
  predicate WellFormed<K, V>(t: Table<K, V>, c: Cursor) {
    Live(t, c) || c.bucket == |t.buckets|
  }

  /** `begin()`: the first entry of the first non-empty bucket, or the end
      position when every bucket is empty. It has passed no entry. */
  function Begin<K, V>(t: Table<K, V>): (r: Cursor)
    ensures WellFormed(t, r) && Before(t, r) == []
  {
    var bs := t.buckets;
    var h := FirstNonEmpty(bs, 0);
    assert Flatten(bs[..h]) == [] by {
      FlattenSkipEmpty(bs, 0, h);
      assert bs[..0] == [];
    }
    assert h == |bs| ==> bs[..h] == bs;
    Cursor(h, 0)
  }

  /** `end()`: bucket index equal to the bucket count, positioned at the end of
      the last bucket's list. */
  function End<K, V>(t: Table<K, V>): (r: Cursor)
    requires |t.buckets| > 0
    ensures WellFormed(t, r) && !Live(t, r)
    ensures Before(t, r) == Flatten(t.buckets)
  {
    Cursor(|t.buckets|, |t.buckets[|t.buckets| - 1]|)
  }

  /** `operator==`: the same entry, or both at the end position. For well-formed
      cursors this is the same as having passed equally many entries. */
  predicate Equal<K, V>(t: Table<K, V>, a: Cursor, b: Cursor): (r: bool)
    ensures WellFormed(t, a) && WellFormed(t, b) ==> (r <==> |Before(t, a)| == |Before(t, b)|)
  {
    var same := (a.bucket < |t.buckets| && a == b)
      || (a.bucket == |t.buckets| && b.bucket == |t.buckets|);
    assert WellFormed(t, a) && WellFormed(t, b) && !same ==> |Before(t, a)| != |Before(t, b)| by {
      if WellFormed(t, a) && WellFormed(t, b) && !same {
        if a.bucket < b.bucket || (a.bucket == b.bucket && a.pos < b.pos) {
          PassedFewer(t, a, b);
        } else {
          PassedFewer(t, b, a);
        }
      }
    }
    same
  }

  /** From an entry, the number of entries passed grows strictly along
      bucket-then-list order. */
  lemma PassedFewer<K, V>(t: Table<K, V>, a: Cursor, b: Cursor)
    requires Live(t, a) && WellFormed(t, b)
    requires a.bucket < b.bucket || (a.bucket == b.bucket && a.pos < b.pos)
    ensures |Before(t, a)| < |Before(t, b)|
  {
    var bs := t.buckets;
    var i, j := a.bucket, b.bucket;
    if i < j {
      FlattenPrefix(bs, i);
      FlattenPrefixOf(bs[..j], i + 1);
      assert bs[..j][..i + 1] == bs[..i + 1];
      assert |Before(t, a)| < |Flatten(bs[..i + 1])| <= |Flatten(bs[..j])|;
      if j == |bs| {
        assert bs[..j] == bs;
      }
    }
  }

  /** `operator++`: the next entry of the same bucket, else the first entry of the
      next non-empty bucket, else the end position. */
  function Advance<K, V>(t: Table<K, V>, c: Cursor): (r: Cursor)
    requires Live(t, c)
    ensures WellFormed(t, r)
    ensures Before(t, r) == Before(t, c) + [Deref(t, c)]
  {
    var bs := t.buckets;
    var b := bs[c.bucket];
    if c.pos + 1 < |b| then
      assert b[..c.pos + 1] == b[..c.pos] + [b[c.pos]];
      Cursor(c.bucket, c.pos + 1)
    else
      var h := FirstNonEmpty(bs, c.bucket + 1);
      assert Flatten(bs[..h]) == Before(t, c) + [Deref(t, c)] by {
        assert b[..c.pos] + [b[c.pos]] == b;
        FlattenPrefix(bs, c.bucket);
        FlattenSkipEmpty(bs, c.bucket + 1, h);
      }
      if h < |bs| then Cursor(h, 0)
      else
        assert bs[..h] == bs;
        End(t)
  }

  /** The entries an iteration from `begin()` has already passed at cursor `c`. */
  ghost function Before<K, V>(t: Table<K, V>, c: Cursor): seq<(K, V)>
    requires WellFormed(t, c)
  {
    if c.bucket < |t.buckets| then Flatten(t.buckets[..c.bucket]) + t.buckets[c.bucket][..c.pos]
    else Flatten(t.buckets)
  }

  /** Empty buckets add nothing to the sequence of entries. */
  lemma {:induction false} FlattenSkipEmpty<K, V>(bs: seq<seq<(K, V)>>, i: nat, j: nat)
    requires i <= j <= |bs|
    requires forall m :: i <= m < j ==> |bs[m]| == 0
    ensures Flatten(bs[..j]) == Flatten(bs[..i])
    decreases j - i
  {
    if i < j {
      FlattenSkipEmpty(bs, i, j - 1);
      FlattenPrefix(bs, j - 1);
      assert bs[j - 1] == [];
    }
  }

  /** The entries of the first `i` buckets are a prefix of all entries. */
  lemma {:induction false} FlattenPrefixOf<K, V>(bs: seq<seq<(K, V)>>, i: nat)
    requires i <= |bs|
    ensures Flatten(bs[..i]) <= Flatten(bs)
    decreases |bs| - i
  {
    if i == |bs| {
      assert bs[..i] == bs;
    } else {
      FlattenPrefixOf(bs, i + 1);
      FlattenPrefix(bs, i);
    }
  }

  /** What an iteration has passed is a prefix of all entries, and a strict one
      while the cursor is still on an entry. */
  lemma BeforeIsPrefix<K, V>(t: Table<K, V>, c: Cursor)
    requires WellFormed(t, c)
    ensures Before(t, c) <= Flatten(t.buckets)
    ensures Live(t, c) ==> |Before(t, c)| < |Flatten(t.buckets)|
  {
    if c.bucket < |t.buckets| {
      var bs := t.buckets;
      FlattenPrefix(bs, c.bucket);
      FlattenPrefixOf(bs, c.bucket + 1);
      assert Before(t, c) <= Flatten(bs[..c.bucket + 1]);
    }
  }

  /** On a valid table, `begin() == end()` exactly when the table is empty. */
  lemma BeginIsEndIffEmpty<K, V>(hash: K -> nat, t: Table<K, V>)
    requires Valid(hash, t)
    ensures Equal(t, Begin(t), End(t)) <==> t.size == 0
  {
    BeforeIsPrefix(t, Begin(t));
    if Begin(t).bucket == |t.buckets| {
      FlattenAllEmpty(t.buckets);
    }
  }

  /** The loop `for (it = begin(); it != end(); ++it)`: returns the entries in
      the order visited, the number of steps taken and the final cursor. */
  method Traverse<K(==), V>(ghost hash: K -> nat, t: Table<K, V>)
    returns (visited: seq<(K, V)>, steps: nat, last: Cursor)
    requires Valid(hash, t)
    ensures visited == Flatten(t.buckets)
    ensures steps == t.size == |visited|
    ensures last.bucket == |t.buckets| && Equal(t, last, End(t))
    ensures DistinctKeys(visited)
    ensures forall j :: 0 <= j < |visited| ==>
      visited[j].0 in Contents(t) && Contents(t)[visited[j].0] == visited[j].1
    ensures forall k :: k in Contents(t) ==> exists j :: 0 <= j < |visited| && visited[j].0 == k
  {
    var c := Begin(t);
    visited, steps := [], 0;
    while !Equal(t, c, End(t))
      invariant WellFormed(t, c)
      invariant visited == Before(t, c)
      invariant steps == |visited|
      decreases |Flatten(t.buckets)| - |visited|
    {
      BeforeIsPrefix(t, c);
      visited := visited + [Deref(t, c)];
      c := Advance(t, c);
      steps := steps + 1;
    }
    last := c;
    FlattenDistinct(hash, t.buckets, |t.buckets|);
    forall j | 0 <= j < |visited|
      ensures visited[j].0 in Contents(t) && Contents(t)[visited[j].0] == visited[j].1
    {
      MapOfValue(visited, j);
    }
    forall k | k in Contents(t)
      ensures exists j :: 0 <= j < |visited| && visited[j].0 == k
    {
      MapOfSound(visited, k);
    }
  }
}

=== FILE: tables.dfy ===
/**
 The storage of the chained hash table: a vector of buckets and the counter of
 live entries, the invariant that ties them together, the abstract key-to-value
 map the storage denotes, and the private mutators of `HashMap` (`add_obj`,
 `erase_obj`, `resize`) plus the single-bucket edits the public operations share.
 The hasher is a parameter `hash: K -> nat`; nothing is assumed about it.
 */
module Tables {
  import opened Buckets

  /** The table: the bucket vector `objects` and the live-entry counter `sz`. */
  datatype Table<K, V> = Table(buckets: seq<seq<(K, V)>>, size: nat)

  /** A position in the table: a bucket index and a position in that bucket's list.
      It stands for the list iterator inside `HashMapIterator` and for the reference
      `operator[]` returns. */
  datatype Cursor = Cursor(bucket: nat, pos: nat)

  /** The bucket of key `k` among `n` buckets: `hasher(key) % objects.size()`. */
  function Slot<K>(hash: K -> nat, k: K, n: nat): (h: nat)
    requires n > 0
    ensures h < n
  {
    hash(k) % n
  }

  /** Every entry, bucket after bucket, each bucket in list order: the order in
      which the table's iterator visits them. */
  function Flatten<K, V>(bs: seq<seq<(K, V)>>): seq<(K, V)> {
    if |bs| == 0 then [] else Flatten(bs[..|bs| - 1]) + bs[|bs| - 1]
  }

  /** Every key of bucket `b` belongs to bucket `h` among `n`. */
  ghost predicate BucketPlaced<K, V>(hash: K -> nat, b: seq<(K, V)>, h: nat, n: nat)
    requires n > 0
  {
    forall j :: 0 <= j < |b| ==> Slot(hash, b[j].0, n) == h
  }

  /** Every entry of every bucket sits in the bucket its key hashes to. */
  ghost predicate Placed<K, V>(hash: K -> nat, bs: seq<seq<(K, V)>>, n: nat)
    requires n > 0
  {
    forall i :: 0 <= i < |bs| ==> BucketPlaced(hash, bs[i], i, n)
  }

  /** The table invariant: at least one bucket, every entry in its key's bucket,
      no key twice in a bucket, and `sz` equal to the sum of the bucket lengths. */
  ghost predicate Valid<K, V>(hash: K -> nat, t: Table<K, V>) {
    && |t.buckets| > 0
    && Placed(hash, t.buckets, |t.buckets|)
    && (forall i :: 0 <= i < |t.buckets| ==> DistinctKeys(t.buckets[i]))
    && t.size == |Flatten(t.buckets)|
  }

  /** The abstract key-to-value map the table stores, read off all buckets
      without using the hash. */
  function Contents<K(==), V>(t: Table<K, V>): map<K, V> {
    MapOf(Flatten(t.buckets))
  }

  /** `m` is contained in `big`, values included. */
  ghost predicate Submap<K, V>(m: map<K, V>, big: map<K, V>) {
    forall x :: x in m ==> x in big && big[x] == m[x]
  }

  /** A cursor on an existing entry (a dereferenceable iterator). */
  predicate Live<K, V>(t: Table<K, V>, c: Cursor) {
    c.bucket < |t.buckets| && c.pos < |t.buckets[c.bucket]|
  }

  /** The entry under a live cursor (`*it`). */
  function Deref<K, V>(t: Table<K, V>, c: Cursor): (K, V)
    requires Live(t, c)
  {
    t.buckets[c.bucket][c.pos]
  }

  // ---------------------------------------------------------------------------
  // Facts about the bucket vector
  // ---------------------------------------------------------------------------

  lemma FlattenPrefix<K, V>(bs: seq<seq<(K, V)>>, i: nat)
    requires i < |bs|
    ensures Flatten(bs[..i + 1]) == Flatten(bs[..i]) + bs[i]
  {
    assert bs[..i + 1][..i] == bs[..i];
  }

  lemma {:induction false} FlattenMember<K, V>(bs: seq<seq<(K, V)>>, e: (K, V))
    ensures e in Flatten(bs) <==> exists i :: 0 <= i < |bs| && e in bs[i]
  {
    if |bs| > 0 {
      var m := |bs| - 1;
      FlattenMember(bs[..m], e);
      assert forall i :: 0 <= i < m ==> bs[..m][i] == bs[i];
    }
  }

  /** Replacing one bucket changes the total length by the difference in lengths. */
  lemma {:induction false} FlattenLenUpdate<K, V>(bs: seq<seq<(K, V)>>, h: nat, nb: seq<(K, V)>)
    requires h < |bs|
    ensures |Flatten(bs[h := nb])| == |Flatten(bs)| - |bs[h]| + |nb|
  {
    var m := |bs| - 1;
    var bs' := bs[h := nb];
    if h == m {
      assert bs'[..m] == bs[..m];
    } else {
      assert bs'[..m] == bs[..m][h := nb];
      FlattenLenUpdate(bs[..m], h, nb);
    }
  }

  /** A vector of empty buckets holds no entry. */
  lemma {:induction false} FlattenAllEmpty<K, V>(bs: seq<seq<(K, V)>>)
    requires forall i :: 0 <= i < |bs| ==> |bs[i]| == 0
    ensures Flatten(bs) == []
  {
    if |bs| > 0 {
      FlattenAllEmpty(bs[..|bs| - 1]);
    }
  }

  lemma DistinctConcat<K, V>(a: seq<(K, V)>, b: seq<(K, V)>)
    requires DistinctKeys(a) && DistinctKeys(b)
    requires forall x, y :: x in a && y in b ==> x.0 != y.0
    ensures DistinctKeys(a + b)
  {
    var s := a + b;
    forall i, j | 0 <= i < j < |s|
      ensures s[i].0 != s[j].0
    {
      if j < |a| {
        assert s[i] == a[i] && s[j] == a[j];
      } else if i >= |a| {
        assert s[i] == b[i - |a|] && s[j] == b[j - |a|];
      } else {
        assert s[i] in a && s[j] in b;
      }
    }
  }

  /** Placement and per-bucket uniqueness make keys unique across the whole table. */
  lemma {:induction false} FlattenDistinct<K, V>(hash: K -> nat, bs: seq<seq<(K, V)>>, n: nat)
    requires n > 0 && Placed(hash, bs, n)
    requires forall i :: 0 <= i < |bs| ==> DistinctKeys(bs[i])
    ensures DistinctKeys(Flatten(bs))
  {
    if |bs| > 0 {
      var m := |bs| - 1;
      var pre := bs[..m];
      assert forall i :: 0 <= i < m ==> pre[i] == bs[i];
      FlattenDistinct(hash, pre, n);
      forall x, y | x in Flatten(pre) && y in bs[m]
        ensures x.0 != y.0
      {
        FlattenMember(pre, x);
        var i :| 0 <= i < m && x in pre[i];
        var p :| 0 <= p < |pre[i]| && pre[i][p] == x;
        var q :| 0 <= q < |bs[m]| && bs[m][q] == y;
        assert Slot(hash, x.0, n) == i;
        assert Slot(hash, y.0, n) == m;
      }
      DistinctConcat(Flatten(pre), bs[m]);
    }
  }

  /** The key of any pair in a placed bucket belongs to that bucket. */
  lemma BucketKeySlot<K, V>(hash: K -> nat, b: seq<(K, V)>, h: nat, n: nat, x: K)
    requires n > 0 && BucketPlaced(hash, b, h, n)
    requires x in MapOf(b)
    ensures Slot(hash, x, n) == h
  {
    MapOfSound(b, x);
  }

  /** The central fact of the table: the stored map agrees, key by key, with the
      map of the single bucket the key hashes to. */
  lemma ContentsBySlot<K, V>(hash: K -> nat, t: Table<K, V>, k: K)
    requires Valid(hash, t)
    ensures var b := t.buckets[Slot(hash, k, |t.buckets|)];
      && (k in Contents(t) <==> k in MapOf(b))
      && (k in Contents(t) ==> Contents(t)[k] == MapOf(b)[k])
  {
    var n := |t.buckets|;
    var h := Slot(hash, k, n);
    var b := t.buckets[h];
    var flat := Flatten(t.buckets);
    FlattenDistinct(hash, t.buckets, n);
    if k in Contents(t) {
      MapOfSound(flat, k);
      var j :| 0 <= j < |flat| && flat[j].0 == k;
      var e := flat[j];
      FlattenMember(t.buckets, e);
      var i :| 0 <= i < n && e in t.buckets[i];
      var p :| 0 <= p < |t.buckets[i]| && t.buckets[i][p] == e;
      assert Slot(hash, e.0, n) == i;
      MapOfValue(b, p);
      MapOfValue(flat, j);
    }
    if k in MapOf(b) {
      MapOfSound(b, k);
      var p :| 0 <= p < |b| && b[p].0 == k;
      FlattenMember(t.buckets, b[p]);
      var j :| 0 <= j < |flat| && flat[j] == b[p];
      MapOfComplete(flat, j);
    }
  }

  /** The scan of the key's bucket (`get_obj`) finds the key exactly when the
      table stores it, and then finds the stored value. */
  lemma ScanFindsContents<K, V>(hash: K -> nat, t: Table<K, V>, k: K)
    requires Valid(hash, t)
    ensures var b := t.buckets[Slot(hash, k, |t.buckets|)];
      && (Scan(b, k) < |b| <==> k in Contents(t))
      && (Scan(b, k) < |b| ==> Contents(t)[k] == b[Scan(b, k)].1)
  {
    ContentsBySlot(hash, t, k);
    ScanAgreesWithMapOf(t.buckets[Slot(hash, k, |t.buckets|)], k);
  }

  /** Each bucket's map is part of the stored map. */
  lemma BucketIsSubmap<K, V>(hash: K -> nat, t: Table<K, V>, h: nat)
    requires Valid(hash, t) && h < |t.buckets|
    ensures Submap(MapOf(t.buckets[h]), Contents(t))
  {
    forall x | x in MapOf(t.buckets[h])
      ensures x in Contents(t) && Contents(t)[x] == MapOf(t.buckets[h])[x]
    {
      BucketKeySlot(hash, t.buckets[h], h, |t.buckets|, x);
      ContentsBySlot(hash, t, x);
    }
  }

  /** The counter `sz` is the number of stored keys. */
  lemma SizeIsCount<K, V>(hash: K -> nat, t: Table<K, V>)
    requires Valid(hash, t)
    ensures t.size == |Contents(t)|
  {
    FlattenDistinct(hash, t.buckets, |t.buckets|);
    MapOfCard(Flatten(t.buckets));
  }

  lemma MapExt<K, V>(a: map<K, V>, b: map<K, V>)
    requires forall x :: (x in a <==> x in b) && (x in a ==> a[x] == b[x])
    ensures a == b
  {
  }

  /** Replacing bucket `h` by a list of distinct keys that all belong to `h` keeps
      the invariant and swaps that bucket's part of the stored map. */
  lemma UpdateBucket<K, V>(hash: K -> nat, t: Table<K, V>, h: nat, nb: seq<(K, V)>, size: nat)
    requires Valid(hash, t) && h < |t.buckets|
    requires BucketPlaced(hash, nb, h, |t.buckets|) && DistinctKeys(nb)
    requires size + |t.buckets[h]| == t.size + |nb|
    ensures Valid(hash, Table(t.buckets[h := nb], size))
    ensures Contents(Table(t.buckets[h := nb], size))
         == (Contents(t) - MapOf(t.buckets[h]).Keys) + MapOf(nb)
  {
    var n := |t.buckets|;
    var b := t.buckets[h];
    var r := Table(t.buckets[h := nb], size);
    FlattenLenUpdate(t.buckets, h, nb);
    assert Valid(hash, r);
    var expected := (Contents(t) - MapOf(b).Keys) + MapOf(nb);
    forall x
      ensures (x in Contents(r) <==> x in expected)
      ensures x in expected ==> Contents(r)[x] == expected[x]
    {
      ContentsBySlot(hash, t, x);
      ContentsBySlot(hash, r, x);
      if x in MapOf(b) {
        BucketKeySlot(hash, b, h, n, x);
      }
      if x in MapOf(nb) {
        BucketKeySlot(hash, nb, h, n, x);
      }
    }
    MapExt(Contents(r), expected);
  }

  lemma UpdateThenUnion<K, V>(m: map<K, V>, k: K, v: V, rest: map<K, V>)
    ensures m[k := v] + rest == m + (map[k := v] + rest)
  {
  }

  lemma UnionAfterOverwrite<K, V>(big: map<K, V>, m: map<K, V>, k: K, v: V)
    requires Submap(m, big)
    ensures (big - m.Keys) + m[k := v] == big[k := v]
  {
  }

  lemma UnionAfterRemove<K, V>(big: map<K, V>, m: map<K, V>, k: K)
    requires Submap(m, big) && k in m
    ensures (big - m.Keys) + (m - {k}) == big - {k}
  {
  }

  // ---------------------------------------------------------------------------
  // Edits of one bucket
  // ---------------------------------------------------------------------------

  /** A table of `n` empty buckets (`objects(n)` with `sz == 0`). */
  function EmptyTable<K(==), V>(ghost hash: K -> nat, n: nat): (r: Table<K, V>)
    requires n > 0
    ensures Valid(hash, r) && |r.buckets| == n && r.size == 0
    ensures Contents(r) == map[]
  {
    var bs: seq<seq<(K, V)>> := seq(n, i => []);
    FlattenAllEmpty(bs);
    Table(bs, 0)
  }

  /** `objects[hsh].push_back(pr); sz++` for a key the table does not hold. */
  function Append<K(==), V>(hash: K -> nat, t: Table<K, V>, k: K, v: V): (r: Table<K, V>)
    requires Valid(hash, t) && k !in Contents(t)
    ensures Valid(hash, r) && |r.buckets| == |t.buckets| && r.size == t.size + 1
    ensures Contents(r) == Contents(t)[k := v]
    ensures var c := Cursor(Slot(hash, k, |t.buckets|), |t.buckets[Slot(hash, k, |t.buckets|)]|);
      Live(r, c) && Deref(r, c) == (k, v)
    ensures var h := Slot(hash, k, |t.buckets|); r.buckets == t.buckets[h := t.buckets[h] + [(k, v)]]
  {
    var h := Slot(hash, k, |t.buckets|);
    var b := t.buckets[h];
    assert Valid(hash, Table(t.buckets[h := b + [(k, v)]], t.size + 1))
        && Contents(Table(t.buckets[h := b + [(k, v)]], t.size + 1)) == Contents(t)[k := v] by {
      ScanFindsContents(hash, t, k);
      assert forall j :: 0 <= j < |b| ==> b[j].0 != k;
      AppendToBucket(b, k, v);
      UpdateBucket(hash, t, h, b + [(k, v)], t.size + 1);
      BucketIsSubmap(hash, t, h);
      UnionAfterOverwrite(Contents(t), MapOf(b), k, v);
    }
    Table(t.buckets[h := b + [(k, v)]], t.size + 1)
  }

  /** Assignment through a reference or iterator: `it->second = v`. */
  function WriteAt<K(==), V>(ghost hash: K -> nat, t: Table<K, V>, c: Cursor, v: V): (r: Table<K, V>)
    requires Valid(hash, t) && Live(t, c)
    ensures Valid(hash, r) && |r.buckets| == |t.buckets| && r.size == t.size
    ensures Live(r, c) && Deref(r, c) == (Deref(t, c).0, v)
    ensures Contents(r) == Contents(t)[Deref(t, c).0 := v]
    ensures r.buckets == t.buckets[c.bucket := t.buckets[c.bucket][c.pos := (Deref(t, c).0, v)]]
  {
    var b := t.buckets[c.bucket];
    var nb := b[c.pos := (b[c.pos].0, v)];
    assert Valid(hash, Table(t.buckets[c.bucket := nb], t.size))
        && Contents(Table(t.buckets[c.bucket := nb], t.size)) == Contents(t)[b[c.pos].0 := v] by {
      OverwriteInBucket(b, c.pos, v);
      assert forall j :: 0 <= j < |b| ==> nb[j].0 == b[j].0;
      UpdateBucket(hash, t, c.bucket, nb, t.size);
      BucketIsSubmap(hash, t, c.bucket);
      UnionAfterOverwrite(Contents(t), MapOf(b), b[c.pos].0, v);
    }
    Table(t.buckets[c.bucket := nb], t.size)
  }

  /** `objects[hsh].erase(it); sz--` for a live cursor. */
  function RemoveAt<K(==), V>(ghost hash: K -> nat, t: Table<K, V>, c: Cursor): (r: Table<K, V>)
    requires Valid(hash, t) && Live(t, c)
    ensures Valid(hash, r) && |r.buckets| == |t.buckets| && r.size == t.size - 1
    ensures Contents(r) == Contents(t) - {Deref(t, c).0}
    ensures forall i :: 0 <= i < |t.buckets| && i != c.bucket ==> r.buckets[i] == t.buckets[i]
    ensures r.buckets[c.bucket] == t.buckets[c.bucket][..c.pos] + t.buckets[c.bucket][c.pos + 1..]
  {
    var b := t.buckets[c.bucket];
    var nb := b[..c.pos] + b[c.pos + 1..];
    assert Valid(hash, Table(t.buckets[c.bucket := nb], t.size - 1))
        && Contents(Table(t.buckets[c.bucket := nb], t.size - 1)) == Contents(t) - {b[c.pos].0} by {
      RemoveFromBucket(b, c.pos);
      assert forall j :: 0 <= j < |nb| ==> nb[j] == b[if j < c.pos then j else j + 1];
      FlattenLenUpdate(t.buckets, c.bucket, nb);
      UpdateBucket(hash, t, c.bucket, nb, t.size - 1);
      BucketIsSubmap(hash, t, c.bucket);
      MapOfValue(b, c.pos);
      UnionAfterRemove(Contents(t), MapOf(b), b[c.pos].0);
    }
    Table(t.buckets[c.bucket := nb], t.size - 1)
  }

  // ---------------------------------------------------------------------------
  // The private mutators of HashMap
  // ---------------------------------------------------------------------------

  /** `add_obj`: insert the pair, or overwrite the value if the key is stored. */
  function AddObj<K(==), V>(hash: K -> nat, t: Table<K, V>, e: (K, V)): (r: Table<K, V>)
    requires Valid(hash, t)
    ensures Valid(hash, r) && |r.buckets| == |t.buckets|
    ensures Contents(r) == Contents(t)[e.0 := e.1]
    ensures r.size == if e.0 in Contents(t) then t.size else t.size + 1
    ensures var h := Slot(hash, e.0, |t.buckets|);
      && (forall j :: 0 <= j < |t.buckets| && j != h ==> r.buckets[j] == t.buckets[j])
      && (e.0 !in Contents(t) ==> r.buckets[h] == t.buckets[h] + [e])
      && (e.0 in Contents(t) ==>
            |r.buckets[h]| == |t.buckets[h]|
            && forall j :: 0 <= j < |t.buckets[h]| ==> r.buckets[h][j].0 == t.buckets[h][j].0)
  {
    var h := Slot(hash, e.0, |t.buckets|);
    var i := Scan(t.buckets[h], e.0);
    ScanFindsContents(hash, t, e.0);
    if i < |t.buckets[h]| then WriteAt(hash, t, Cursor(h, i), e.1)
    else Append(hash, t, e.0, e.1)
  }

  /** `add_obj` applied to each pair of `s` in order. */
  function AddAll<K(==), V>(hash: K -> nat, t: Table<K, V>, s: seq<(K, V)>): (r: Table<K, V>)
    requires Valid(hash, t)
    ensures Valid(hash, r) && |r.buckets| == |t.buckets|
    ensures Contents(r) == Contents(t) + MapOf(s)
    decreases |s|
  {
    if |s| == 0 then t
    else
      var r := AddAll(hash, AddObj(hash, t, s[0]), s[1..]);
      UpdateThenUnion(Contents(t), s[0].0, s[0].1, MapOf(s[1..]));
      r
  }

  /** `resize(newsz)`: a fresh vector of `newsz` empty buckets, then `add_obj` of
      every old entry, old buckets in order and each in list order. */
  function Resize<K(==), V>(hash: K -> nat, t: Table<K, V>, newCount: nat): (r: Table<K, V>)
    requires Valid(hash, t) && newCount > 0
    ensures Valid(hash, r) && |r.buckets| == newCount
    ensures Contents(r) == Contents(t) && r.size == t.size
  {
    var r := AddAll(hash, EmptyTable(hash, newCount), Flatten(t.buckets));
    assert map[] + Contents(t) == Contents(t);
    SizeIsCount(hash, t);
    SizeIsCount(hash, r);
    r
  }

  /** The growth check `insert` and `operator[]` run before they touch the table:
      rebuild with `2 * sz` buckets when there are fewer buckets than entries. */
  function Grow<K(==), V>(hash: K -> nat, t: Table<K, V>): (r: Table<K, V>)
    requires Valid(hash, t)
    ensures Valid(hash, r) && Contents(r) == Contents(t) && r.size == t.size
    ensures |r.buckets| == if |t.buckets| < t.size then 2 * t.size else |t.buckets|
    ensures r.size <= |r.buckets|
    ensures t.size <= |t.buckets| ==> r == t
  {
    if |t.buckets| < t.size then Resize(hash, t, t.size * 2) else t
  }
}
